=== FILE: README.md ===
# DataCite mapping value objects in Dafny

This project models the validated value objects of the `datacite-mapping`
Ruby library, which maps DataCite metadata XML to Ruby objects and back:

- `TitleType`, the closed vocabulary of title types, with its three wire
  tokens and exact-match lookup;
- `Title` (text, language, optional type) and `Publisher` (name, language,
  identifier, identifier scheme, scheme URI), with their trimming,
  validating writers and their constructors;
- `GeoLocationPoint` (latitude, longitude), with its range-checked
  constructor and writers, equality, hash and text form, and the
  `GeoLocationPointNode` conversion that reads a point from XML text.

Everything is a pure function over immutable datatypes. Ruby `nil` is
`Option.None`. A raised `ArgumentError` is `Result.Failure` carrying an
`Errors.Error`. A writer takes the old object and returns the new one. The
strings are `seq<char>`, and Ruby's `String#strip` is `Text.Strip`, proved
to remove exactly the surrounding whitespace. Coordinates are `real`, so
Ruby's Integer and Float coordinates are not told apart (see "## Left out").

Modules, one per file: `Wrappers` (`wrappers.dfy`), `Errors`
(`errors.dfy`), `Text` (`text.dfy`: strip, whitespace split and the value
check that titles and publishers share), `TitleTypes` (`title_type.dfy`),
`Titles` (`title.dfy`), `Publishers` (`publisher.dfy`) and
`GeoLocationPoints` (`geo_location_point.dfy`).

Behaviour worth noting:

- `Title#language=` is written `@language = value.strip if value`. With nil
  the assignment is skipped, so the previous language is kept. Nil is not
  stored. `Titles.SetLanguage` models this. On a new title nothing is stored
  yet, so `Title.new(language: nil, ...)` still reports `"en"`.
- `Publisher#language=` uses `value&.strip`, so nil does clear the
  language. `Publishers.SetLanguage` models this.
- The source of `GeoLocationPoint` and its node is not available, so the
  point is modelled after the assertions in its unit test. The model
  assumes that the node's tokeniser splits at runs of the characters Ruby's
  `\s` matches. The whitespace test at
  spec/unit/datacite/mapping/geo_location_point_spec.rb:136-143 separates
  the numbers by a tab and surrounds them with newlines and spaces.
- `strip` and `\s` differ in one character: `strip` also removes NUL,
  but `\s` does not match it. So NUL at either end of a point's text is
  stripped, while NUL inside it does not split two numbers.

Ruby's `strip` removes NUL, tab, line feed, vertical tab, form feed,
carriage return and space (`Text.IsSpace`). The regular-expression class
`\s` matches the same characters except NUL (`Text.IsBreak`).

## Model

| member | source | states |
|---|---|---|
| Text.Strip | lib/datacite/mapping/title.rb:43-45 | `strip` returns a string with no whitespace at either end. That string is an infix of the input with only whitespace on both sides of it. |
| Text.StripPadded | lib/datacite/mapping/title.rb:43-45 | `strip` is determined by that property: a stripped string with any whitespace on both sides strips back to itself. |
| Text.StripIdempotent | lib/datacite/mapping/title.rb:43-45 | The second `strip` in `value=` changes nothing: stripping twice is stripping once. |
| Text.StripEmptyIffBlank | lib/datacite/mapping/title.rb:43-44 | `strip` gives the empty string exactly when the input is all whitespace. |
| Text.CheckValue | lib/datacite/mapping/publisher.rb:27-31 | The shared value check fails, with the empty-value error, exactly when the input is nil or blank. Otherwise it yields `Strip(input)`, which is non-empty and has no outer whitespace. |
| Text.Words | spec/unit/datacite/mapping/geo_location_point_spec.rb:136-143 | Splitting at runs of `\s` characters yields only non-empty words that contain no `\s` character; NUL does not split. It yields no words exactly when the text consists only of `\s` characters. |
| Text.WordsOfPair | spec/unit/datacite/mapping/geo_location_point_spec.rb:136-143 | Two words separated by any non-empty run of `\s` characters, tabs and newlines included, split into exactly those two words. |
| Text.StrippedWordsOfPair | spec/unit/datacite/mapping/geo_location_point_spec.rb:136-143 | The same holds after stripping text that has arbitrary whitespace around the two tokens. |
| Text.TokenIsWord | spec/unit/datacite/mapping/geo_location_point_spec.rb:136-143 | A token that `strip` leaves whole contains no `\s` character, so the split never breaks it. |
| TitleTypes.Token | lib/datacite/mapping/title.rb:9-15 | Each constant's wire token is its ProperCase spelling, "AlternativeTitle", "Subtitle" or "TranslatedTitle", in both directions. Each token starts with a capital letter. |
| TitleTypes.DeclaredIsComplete | lib/datacite/mapping/title.rb:7-15 | The enumeration declares exactly three constants. Each constant is declared once, and every constant is among them. |
| TitleTypes.TokenInjective | lib/datacite/mapping/title.rb:7-15 | Two constants have the same wire token if and only if they are the same constant. |
| TitleTypes.Find | lib/datacite/mapping/title.rb:7-15 | A search through a list of constants returns a listed constant with exactly the given token. It returns nothing only when no listed constant has that token. |
| TitleTypes.Lookup | lib/datacite/mapping/title.rb:7-15 | Lookup by wire token returns a constant whose token matches exactly. It returns nothing only when no constant has that token. |
| TitleTypes.LookupToken | lib/datacite/mapping/title.rb:7-15 | Every constant is found again from its own token. |
| TitleTypes.LookupIsExact | lib/datacite/mapping/title.rb:7-15 | "Subtitle" finds SUBTITLE. "subtitle" and "NotAType" find nothing. |
| Titles.Language | lib/datacite/mapping/title.rb:34-36 | The `language` reader returns "en" when no language is stored. Otherwise it returns the stored string, the empty string included. |
| Titles.SetLanguage | lib/datacite/mapping/title.rb:38-40 | A string language is stored stripped. Nil leaves the stored language as it was. Value and type do not change, and a valid title stays valid. |
| Titles.SetType | lib/datacite/mapping/title.rb:53-55 | The type is stored as given. Value and language do not change. |
| Titles.SetValue | lib/datacite/mapping/title.rb:42-46 | The `value` writer fails exactly when the input is nil or blank. On success it stores `Strip(input)` and leaves language and type unchanged. |
| Titles.NewTitle | lib/datacite/mapping/title.rb:28-32 | The constructor succeeds exactly when the value passes the `value` check. The result is valid and holds the stripped value and the given type. Its language is the stripped given language, or "en" when nil is given. |
| Titles.NewTitleDefaults | lib/datacite/mapping/title.rb:28-36 | A title built from a value alone reports language "en" and has no type. |
| Titles.NewTitleExamples | lib/datacite/mapping/title.rb:42-46 | `Title.new(value: "  Example  ")` stores "Example". |
| Titles.NewTitleRefusesEmpty | lib/datacite/mapping/title.rb:42-46 | An empty or nil value makes the constructor fail. |
| Titles.BlankLanguageIsKept | lib/datacite/mapping/title.rb:34-40 | A blank language is stored as "". The reader then returns "", not the "en" default. |
| Titles.SettersCommute | lib/datacite/mapping/title.rb:28-46 | Setting language or type does not affect whether `value=` succeeds. The order of the writers does not change the resulting title. |
| Publishers.SetLanguage | lib/datacite/mapping/publisher.rb:23-25 | Nil clears the language, and a string is stored stripped. There is no default. Every other field is unchanged. |
| Publishers.SetValue | lib/datacite/mapping/publisher.rb:27-32 | The `value` writer fails exactly when the input is nil or blank. On success the result is the old publisher with value `Strip(input)`. |
| Publishers.SetIdentifier | lib/datacite/mapping/publisher.rb:38-40 | The identifier is stored exactly as passed. Every other field is unchanged. |
| Publishers.SetIdentifierScheme | lib/datacite/mapping/publisher.rb:42-44 | The identifier scheme is stored exactly as passed. Every other field is unchanged. |
| Publishers.SetSchemeUri | lib/datacite/mapping/publisher.rb:46-48 | The scheme URI is stored exactly as passed. Every other field is unchanged. |
| Publishers.NewPublisher | lib/datacite/mapping/publisher.rb:15-21 | The constructor succeeds exactly when the value is valid. It stores the stripped value and the stripped language, or nil. The three identifier fields are stored untouched. |
| Publishers.NewPublisherDefaults | lib/datacite/mapping/publisher.rb:15-21 | A publisher built from a name alone has every optional field nil. |
| Publishers.SettersCommute | lib/datacite/mapping/publisher.rb:15-31 | Setting the language does not affect whether `value=` succeeds. Language and value writers commute. |
| GeoLocationPoints.CheckCoordinate | spec/unit/datacite/mapping/geo_location_point_spec.rb:45-77 | A coordinate is accepted exactly when it is present and within its bound. Nil fails with the missing-coordinate error, and an out-of-range value with the out-of-range error. |
| GeoLocationPoints.SetLatitude | spec/unit/datacite/mapping/geo_location_point_spec.rb:45-60 | The latitude writer succeeds exactly for a present latitude in [-90, 90]. It then stores it and keeps the longitude. |
| GeoLocationPoints.SetLongitude | spec/unit/datacite/mapping/geo_location_point_spec.rb:62-77 | The longitude writer succeeds exactly for a present longitude in [-180, 180]. It then stores it and keeps the latitude. |
| GeoLocationPoints.FromCoordinates | spec/unit/datacite/mapping/geo_location_point_spec.rb:33-77 | Construction runs the latitude writer, then the longitude writer. The result is a valid point holding exactly the two coordinates when both are present and in range. The model checks the latitude first, so a missing or out-of-range latitude gives the latitude's error. |
| GeoLocationPoints.NewPoint | spec/unit/datacite/mapping/geo_location_point_spec.rb:5-42 | Construction succeeds exactly when the arguments are two positional values or exactly `latitude:` and `longitude:`, both in range. The point then holds those values. Any other shape of arguments fails. |
| GeoLocationPoints.PositionalAndNamedAgree | spec/unit/datacite/mapping/geo_location_point_spec.rb:7-17 | The positional and the named call build the same point. Both succeed exactly for in-range coordinates, storing them as given. |
| GeoLocationPoints.WrongArgumentsRefused | spec/unit/datacite/mapping/geo_location_point_spec.rb:19-31 | These calls are all refused: one coordinate, only one named coordinate, three positional values, an extra named key, or positional and named mixed. |
| GeoLocationPoints.ConstructionExamples | spec/unit/datacite/mapping/geo_location_point_spec.rb:7-42 | The test's points are accepted. ±91 latitude, ±181 longitude and ±90.0001 latitude are refused. |
| GeoLocationPoints.Equal | spec/unit/datacite/mapping/geo_location_point_spec.rb:79-95 | `==` holds exactly when the two points are the same pair. |
| GeoLocationPoints.EqualSymmetric | spec/unit/datacite/mapping/geo_location_point_spec.rb:79-95 | `==` is symmetric. |
| GeoLocationPoints.Hash | spec/unit/datacite/mapping/geo_location_point_spec.rb:97-106 | `hash` depends only on the coordinate pair: every point equal to this one has the host's hash of the same pair. |
| GeoLocationPoints.EqualPointsHashEqual | spec/unit/datacite/mapping/geo_location_point_spec.rb:97-106 | Equal points have equal hashes, whatever hash on pairs the host uses. |
| GeoLocationPoints.ToText | spec/unit/datacite/mapping/geo_location_point_spec.rb:115-120 | `to_s`, which is also the node's XML text, is the latitude text, then one ASCII space, then the longitude text, and nothing else. When each coordinate renders as one token, `to_s` has no outer whitespace. It then splits back into exactly the latitude text and the longitude text. |
| GeoLocationPoints.NewPointOfWords | spec/unit/datacite/mapping/geo_location_point_spec.rb:129-143 | Building a point from numbers read from words succeeds exactly for two words whose numbers are in range. The point holds those numbers. |
| GeoLocationPoints.ToValue | spec/unit/datacite/mapping/geo_location_point_spec.rb:129-143 | `to_value` succeeds exactly when the stripped text splits into two words whose numbers are in range. The point holds those numbers. |
| GeoLocationPoints.ToValueOfTwoWords | spec/unit/datacite/mapping/geo_location_point_spec.rb:129-135 | Text that splits into two words reads exactly as the positional constructor applied to those two numbers, errors included. |
| GeoLocationPoints.ToValueToleratesWhitespace | spec/unit/datacite/mapping/geo_location_point_spec.rb:136-143 | Surrounding whitespace and any non-empty run of `\s` characters between the tokens do not change the point read. |
| GeoLocationPoints.RoundTrip | spec/unit/datacite/mapping/geo_location_point_spec.rb:115-143 | For a valid point, `to_value` of its text, with any whitespace around it, gives the same point back. This needs each coordinate to render as one token that reads back as the same number. |

## Left out

- The XML mapping engine is not modelled. This covers `include XML::Mapping`, `text_node`, `uri_node`, `typesafe_enum_node` and `fallback_mapping :datacite_3, :_default`. It lives in the external xml-mapping libraries, which are not part of this model. The writers it would call are modelled.
- The TypesafeEnum library's internals are not modelled: symbolic keys, ordinals and `find_by_key`. Only the three constants, their tokens and exact-match lookup are modelled.
- `scheme_uri` is kept as an opaque optional string. URI parsing belongs to Ruby's URI library.
- Number-to-text and text-to-number conversion are parameters of `ToText`, `ToValue` and `RoundTrip`, not definitions. Ruby's float formatting and `to_f` are not modelled.
- Text.Strip: a Dafny `string` holds only valid characters, so text whose bytes are invalid in its encoding cannot be written. On such text Ruby's `String#strip` raises `ArgumentError` ("invalid byte sequence in UTF-8"). So the language and value writers of Title and Publisher raise on it, and `Title.new(value: "X", language: "\xFF")` fails in Ruby. `NewTitle` and `NewPublisher` succeed exactly when the value passes the check only for validly encoded input.
- GeoLocationPoints: `real` has no NaN, no infinities and no -0.0. Ruby's Float has all three, and it renders -0.0 as "-0.0" although `-0.0 == 0.0`.
- GeoLocationPoints: coordinates are `real`, so Ruby's Integer and Float are merged. The test passes both, and `91` and `91.0` become the same value. In Ruby the class shows in two places. `to_s` renders `91` as "91" but `91.0` as "91.0", while the `format` parameter gives one text per real. And `1 == 1.0` holds, but `[1, 2].hash` differs from `[1.0, 2.0].hash`, so `EqualPointsHashEqual` holds in Ruby only when both points use the same numeric class.
- GeoLocationPoints.Hash: the hash on pairs is a parameter, because Ruby seeds `Array#hash` per process. The test's claim that unequal points hash differently holds only with high probability and is not stated.
- The test that parses a whole DataCite 4 document is not modelled. It needs the `Resource` aggregate and an XML fixture, neither of which is part of this model.
- `GeoLocationPoint.allocate` is not modelled. The writer tests run on an uninitialised object; the writers here act on a point, and they never read the coordinate they set.
- Arguments of other classes, `false` included, are not modelled, because the types exclude them. In Ruby the outcome depends on the writer. `Title#type=`, `identifier=`, `identifier_scheme=` and `scheme_uri=` are plain accessors that store any object. `Title#value=(false)` raises `ArgumentError`, since `v && v.strip` yields `false` and the `unless` guard then raises. `Title#language=(false)` does nothing, because of the modifier-`if`. The `strip` calls raise `NoMethodError` on any other non-string they reach: a truthy one in Title's writers, and any non-nil one, `false` included, in Publisher's, because `&.` skips only nil. So `Publisher#language=(false)` and `Publisher#value=(false)` raise `NoMethodError`.
- A title or publisher constructor call without `value:` is a Ruby `ArgumentError`. Here `value` is a required parameter, so such a call cannot be written.
- The exception messages are not modelled. Errors are distinguished only by kind.

=== FILE: errors.dfy ===
/** The ways a value object refuses its input. The library raises Ruby's
    `ArgumentError` in every case; the constructors below distinguish the
    reasons the messages give. */
module Errors {

  /** The two coordinates of a geographic point. */
  datatype Axis = Latitude | Longitude

  datatype Error =
    /** A title or publisher value that is nil or blank after trimming. */
    | EmptyValue
    /** A coordinate that was not supplied (nil). */
    | MissingCoordinate(axis: Axis)
    /** A coordinate outside its permitted range. */
    | CoordinateOutOfRange(axis: Axis, given: real)
    /** Constructor arguments that are not exactly one latitude and one longitude. */
    | BadArguments
}

=== FILE: geo_location_point.dfy ===
/** A geographic point (latitude, longitude) and the text node that reads and
    writes it as "lat lon". Both coordinates are range-checked whenever they
    are set. How numbers are rendered as text and read back, and how a pair
    is hashed, are the host language's business and enter as parameters. */
module GeoLocationPoints {
  import opened Wrappers
  import opened Errors
  import opened Text

  datatype GeoLocationPoint = GeoLocationPoint(latitude: real, longitude: real)

  /** The largest magnitude a coordinate on `axis` may have. */
  function Bound(axis: Axis): real {
    match axis
    case Latitude => 90.0
    case Longitude => 180.0
  }

  predicate InRange(axis: Axis, x: real) {
    -Bound(axis) <= x <= Bound(axis)
  }

  /** Both coordinates within their bounds: what every constructor and
      setter maintains. */
  predicate Valid(p: GeoLocationPoint) {
    InRange(Latitude, p.latitude) && InRange(Longitude, p.longitude)
  }

  /** The check both setters apply: nil and out-of-range values are refused. */
  function CheckCoordinate(axis: Axis, v: Option<real>): (r: Result<real, Error>)
    ensures r.Success? <==> v.Some? && -Bound(axis) <= v.value <= Bound(axis)
    ensures r.Success? ==> r.value == v.value
    ensures v.None? ==> r == Failure(MissingCoordinate(axis))
    ensures v.Some? && r.Failure? ==> r == Failure(CoordinateOutOfRange(axis, v.value))
  {
    match v
    case None => Failure(MissingCoordinate(axis))
    case Some(x) => if InRange(axis, x) then Success(x) else Failure(CoordinateOutOfRange(axis, x))
  }

  /** The `latitude` writer: stores an in-range latitude, keeps the longitude. */
  function SetLatitude(p: GeoLocationPoint, v: Option<real>): (r: Result<GeoLocationPoint, Error>)
    ensures r.Success? <==> v.Some? && -90.0 <= v.value <= 90.0
    ensures r.Success? ==> r.value.latitude == v.value && r.value.longitude == p.longitude
    ensures r.Success? && Valid(p) ==> Valid(r.value)
  {
    var x :- CheckCoordinate(Latitude, v);
    Success(p.(latitude := x))
  }

  /** The `longitude` writer: stores an in-range longitude, keeps the latitude. */
  function SetLongitude(p: GeoLocationPoint, v: Option<real>): (r: Result<GeoLocationPoint, Error>)
    ensures r.Success? <==> v.Some? && -180.0 <= v.value <= 180.0
    ensures r.Success? ==> r.value.longitude == v.value && r.value.latitude == p.latitude
    ensures r.Success? && Valid(p) ==> Valid(r.value)
  {
    var x :- CheckCoordinate(Longitude, v);
    Success(p.(longitude := x))
  }

  /** The arguments of a constructor call: the positional values and the
      named ones (keyword to value); an absent or nil value is `None`. */
  datatype PointArgs = PointArgs(positional: seq<Option<real>>, named: map<string, Option<real>>)

  /** The value given under `key`, or nil when the key is not there. */
  function Named(args: PointArgs, key: string): Option<real> {
    if key in args.named then args.named[key] else None
  }

  /** The shapes of argument list the constructor takes: two positional
      values, or `latitude:` and `longitude:` by name, and nothing else. */
  predicate WellShaped(args: PointArgs) {
    || (|args.positional| == 2 && args.named == map[])
    || (args.positional == [] && args.named.Keys == {"latitude", "longitude"})
  }

  /** The (latitude, longitude) a well-shaped argument list supplies. */
  function Supplied(args: PointArgs): (Option<real>, Option<real>)
    requires WellShaped(args)
  {
    if args.positional == [] then (Named(args, "latitude"), Named(args, "longitude"))
    else (args.positional[0], args.positional[1])
  }

  /** The object before `initialize` runs. Its coordinates are placeholders:
      the setters overwrite each one without reading it. */
  const Unset: GeoLocationPoint := GeoLocationPoint(0.0, 0.0)

  /** The point a latitude and a longitude make: the latitude writer, then
      the longitude writer, applied to the unset object. */
  function FromCoordinates(latitude: Option<real>, longitude: Option<real>): (r: Result<GeoLocationPoint, Error>)
    ensures r.Success? <==> && latitude.Some? && InRange(Latitude, latitude.value)
                            && longitude.Some? && InRange(Longitude, longitude.value)
    ensures r.Success? ==> r.value == GeoLocationPoint(latitude.value, longitude.value) && Valid(r.value)
    ensures latitude.None? ==> r == Failure(MissingCoordinate(Latitude))
    ensures latitude.Some? && !InRange(Latitude, latitude.value)
            ==> r == Failure(CoordinateOutOfRange(Latitude, latitude.value))
  {
    var p :- SetLatitude(Unset, latitude);
    SetLongitude(p, longitude)
  }

  /** `GeoLocationPoint.new`: two positional coordinates, or `latitude:` and
      `longitude:` by name, each within range. A missing, extra, unknown or
      mixed argument is refused, and so is a value out of range. */
  function NewPoint(args: PointArgs): (r: Result<GeoLocationPoint, Error>)
    ensures r.Success? <==> && WellShaped(args)
                            && Supplied(args).0.Some? && InRange(Latitude, Supplied(args).0.value)
                            && Supplied(args).1.Some? && InRange(Longitude, Supplied(args).1.value)
    ensures r.Success? ==> && r.value.latitude == Supplied(args).0.value
                           && r.value.longitude == Supplied(args).1.value
                           && Valid(r.value)
    ensures !WellShaped(args) ==> r == Failure(BadArguments)
  {
    if !WellShaped(args) then
      Failure(BadArguments)
    else
      var (latitude, longitude) := Supplied(args);
      FromCoordinates(latitude, longitude)
  }

  /** Positional call: `GeoLocationPoint.new(latitude, longitude)`. */
  function Positional(latitude: real, longitude: real): PointArgs {
    PointArgs([Some(latitude), Some(longitude)], map[])
  }

  /** Named call: `GeoLocationPoint.new(latitude: .., longitude: ..)`. */
  function ByName(latitude: real, longitude: real): PointArgs {
    PointArgs([], map["latitude" := Some(latitude), "longitude" := Some(longitude)])
  }

  /** Both calling conventions build the same point, and they succeed
      exactly for in-range coordinates. */
  lemma PositionalAndNamedAgree(latitude: real, longitude: real)
    ensures NewPoint(Positional(latitude, longitude)) == NewPoint(ByName(latitude, longitude))
    ensures NewPoint(Positional(latitude, longitude)).Success?
            <==> -90.0 <= latitude <= 90.0 && -180.0 <= longitude <= 180.0
    ensures NewPoint(Positional(latitude, longitude)).Success? ==>
              NewPoint(Positional(latitude, longitude)).value == GeoLocationPoint(latitude, longitude)
  {
    assert WellShaped(ByName(latitude, longitude));
  }

  /** One coordinate, three positional values, or a named call with a key
      other than `latitude` and `longitude` are all refused. */
  lemma WrongArgumentsRefused(latitude: real, longitude: real, extra: real, key: string)
    requires key != "latitude" && key != "longitude"
    ensures NewPoint(PointArgs([Some(latitude)], map[])).Failure?
    ensures NewPoint(PointArgs([], map["latitude" := Some(latitude)])).Failure?
    ensures NewPoint(PointArgs([], map["longitude" := Some(longitude)])).Failure?
    ensures NewPoint(PointArgs([Some(latitude), Some(longitude), Some(extra)], map[])).Failure?
    ensures NewPoint(PointArgs([], ByName(latitude, longitude).named[key := Some(extra)])).Failure?
    ensures NewPoint(PointArgs([Some(latitude)], map["longitude" := Some(longitude)])).Failure?
  {
    var named := ByName(latitude, longitude).named[key := Some(extra)];
    assert key in named.Keys;
    assert named.Keys != {"latitude", "longitude"};
  }

  /** Ruby `==`: two points are equal when both coordinates are. */
  function Equal(p: GeoLocationPoint, q: GeoLocationPoint): (r: bool)
    ensures r <==> p == q
  {
    p.latitude == q.latitude && p.longitude == q.longitude
  }

  /** Equality is symmetric. */
  lemma EqualSymmetric(p: GeoLocationPoint, q: GeoLocationPoint)
    ensures Equal(p, q) <==> Equal(q, p)
  {
  }

  /** `hash`: a function of the (latitude, longitude) pair, computed by the
      host's hash on pairs. Any point equal to `p` gives the same pair. */
  function Hash(p: GeoLocationPoint, pairHash: (real, real) -> int): (h: int)
    ensures forall q :: Equal(p, q) ==> h == pairHash(q.latitude, q.longitude)
  {
    pairHash(p.latitude, p.longitude)
  }

  /** Equal points hash equally, whatever the pair hash. */
  lemma EqualPointsHashEqual(p: GeoLocationPoint, q: GeoLocationPoint, pairHash: (real, real) -> int)
    requires Equal(p, q)
    ensures Hash(p, pairHash) == Hash(q, pairHash)
  {
  }

  /** Number-to-text conversions the rendering relies on: each coordinate
      renders as one non-empty token without whitespace. */
  predicate RendersAsTokens(p: GeoLocationPoint, format: real -> string) {
    IsToken(format(p.latitude)) && IsToken(format(p.longitude))
  }

  /** `to_s`, which the node's `to_xml_text` writes: the latitude, one ASCII
      space, the longitude. */
  function ToText(p: GeoLocationPoint, format: real -> string): (s: string)
    ensures |s| == |format(p.latitude)| + 1 + |format(p.longitude)|
    ensures s[..|format(p.latitude)|] == format(p.latitude)
    ensures s[|format(p.latitude)|] == ' '
    ensures s[|format(p.latitude)| + 1..] == format(p.longitude)
    ensures RendersAsTokens(p, format) ==> IsStripped(s) && Words(s) == [format(p.latitude), format(p.longitude)]
  {
    var s := format(p.latitude) + " " + format(p.longitude);
    if RendersAsTokens(p, format) then
      TokenIsWord(format(p.latitude));
      TokenIsWord(format(p.longitude));
      WordsOfPair(format(p.latitude), " ", format(p.longitude));
      PairStripped(format(p.latitude), " ", format(p.longitude));
      s
    else
      s
  }

  /** Each word read as a number, as a positional argument. */
  function Coordinates(ws: seq<string>, parse: string -> real): (cs: seq<Option<real>>)
    ensures |cs| == |ws|
    ensures forall k :: 0 <= k < |ws| ==> cs[k] == Some(parse(ws[k]))
  {
    seq(|ws|, k requires 0 <= k < |ws| => Some(parse(ws[k])))
  }

  /** Constructing a point from words read as numbers succeeds exactly for
      two in-range words. */
  lemma NewPointOfWords(ws: seq<string>, parse: string -> real)
    ensures var r := NewPoint(PointArgs(Coordinates(ws, parse), map[]));
            && (r.Success? <==> |ws| == 2 && InRange(Latitude, parse(ws[0])) && InRange(Longitude, parse(ws[1])))
            && (r.Success? ==> r.value == GeoLocationPoint(parse(ws[0]), parse(ws[1])))
  {
  }

  /** The node's `to_value`: strip the text, split it at whitespace runs,
      read each piece as a number and construct a point from the pieces as
      positional arguments. */
  function ToValue(text: string, parse: string -> real): (r: Result<GeoLocationPoint, Error>)
    ensures var ws := Words(Strip(text));
            && (r.Success? <==> |ws| == 2 && InRange(Latitude, parse(ws[0])) && InRange(Longitude, parse(ws[1])))
            && (r.Success? ==> r.value == GeoLocationPoint(parse(ws[0]), parse(ws[1])))
  {
    var ws := Words(Strip(text));
    NewPointOfWords(ws, parse);
    NewPoint(PointArgs(Coordinates(ws, parse), map[]))
  }

  /** Text holding two tokens, with any whitespace around them and any
      non-empty run of `\s` characters between them, reads as the point
      those two tokens denote. */
  lemma ToValueToleratesWhitespace(a: string, t1: string, c: string, t2: string, b: string, parse: string -> real)
    requires AllSpace(a) && AllBreak(c) && AllSpace(b) && c != []
    requires IsToken(t1) && IsToken(t2)
    ensures ToValue(a + t1 + c + t2 + b, parse) == NewPoint(Positional(parse(t1), parse(t2)))
  {
    StrippedWordsOfPair(a, t1, c, t2, b);
    ToValueOfTwoWords(a + t1 + c + t2 + b, t1, t2, parse);
  }

  /** Text that strips and splits into two words reads as the point made
      from those words as positional arguments. */
  lemma ToValueOfTwoWords(text: string, t1: string, t2: string, parse: string -> real)
    requires Words(Strip(text)) == [t1, t2]
    ensures ToValue(text, parse) == NewPoint(Positional(parse(t1), parse(t2)))
  {
    CoordinatesOfPair(t1, t2, parse);
  }

  /** Two words read as numbers are the arguments of a positional call. */
  lemma CoordinatesOfPair(t1: string, t2: string, parse: string -> real)
    ensures Coordinates([t1, t2], parse) == Positional(parse(t1), parse(t2)).positional
  {
  }

  /** Writing a valid point and reading the text back, with any whitespace
      added around it, gives the same point, provided the number format is
      read back exactly. */
  lemma RoundTrip(p: GeoLocationPoint, format: real -> string, parse: string -> real, a: string, b: string)
    requires Valid(p)
    requires RendersAsTokens(p, format)
    requires parse(format(p.latitude)) == p.latitude && parse(format(p.longitude)) == p.longitude
    requires AllSpace(a) && AllSpace(b)
    ensures ToValue(a + ToText(p, format) + b, parse) == Success(p)
  {
    var s := ToText(p, format);
    assert a + s + b == a + format(p.latitude) + " " + format(p.longitude) + b;
    ToValueToleratesWhitespace(a, format(p.latitude), " ", format(p.longitude), b, parse);
  }

  /** The examples the library's tests pin down. */
  lemma ConstructionExamples()
    ensures NewPoint(Positional(47.61, -122.33)) == Success(GeoLocationPoint(47.61, -122.33))
    ensures NewPoint(ByName(47.61, -122.33)) == Success(GeoLocationPoint(47.61, -122.33))
    ensures NewPoint(Positional(91.0, -122.33)).Failure?
    ensures NewPoint(Positional(-91.0, -122.33)).Failure?
    ensures NewPoint(Positional(47.61, 181.0)).Failure?
    ensures NewPoint(Positional(47.61, -181.0)).Failure?
    ensures NewPoint(Positional(90.0001, 0.0)).Failure?
    ensures NewPoint(Positional(-90.0001, 0.0)).Failure?
  {
    PositionalAndNamedAgree(47.61, -122.33);
  }
}

=== FILE: publisher.dfy ===
/** The publisher of a resource: its name, an optional language code and an
    optional publisher identifier with its scheme and scheme URI. Only the
    name and the language are checked; the identifier fields are stored as
    given. */
module Publishers {
  import opened Wrappers
  import opened Errors
  import opened Text

  /** The stored state of a publisher. Unlike a title, the language has no
      default: the reader returns `language` as stored, nil included. The
      scheme URI is kept as its text. */
  datatype Publisher = Publisher(
    language: Option<string>,
    value: string,
    identifier: Option<string>,
    identifierScheme: Option<string>,
    schemeUri: Option<string>)

  /** `p` and `q` agree on the name and the language. */
  predicate SameNameAndLanguage(p: Publisher, q: Publisher) {
    p.value == q.value && p.language == q.language
  }

  /** `p` and `q` agree on the three identifier fields. */
  predicate SameIdentification(p: Publisher, q: Publisher) {
    && p.identifier == q.identifier
    && p.identifierScheme == q.identifierScheme
    && p.schemeUri == q.schemeUri
  }

  /** What the setters maintain: a non-empty trimmed value and, when a
      language is stored, a trimmed language. */
  predicate Valid(p: Publisher) {
    && p.value != []
    && IsStripped(p.value)
    && (p.language.Some? ==> IsStripped(p.language.value))
  }

  /** The `language` writer: nil clears the language, a string is stored
      trimmed. Nothing else changes. */
  function SetLanguage(p: Publisher, language: Option<string>): (r: Publisher)
    ensures language.None? ==> r.language.None?
    ensures language.Some? ==> r.language == Some(Strip(language.value))
    ensures r.value == p.value && SameIdentification(r, p)
    ensures Valid(p) ==> Valid(r)
  {
    match language
    case None => p.(language := None)
    case Some(s) => p.(language := Some(Strip(s)))
  }

  /** The `value` writer: refuses nil or blank text, and otherwise stores the
      trimmed text, leaving every other field alone. */
  function SetValue(p: Publisher, v: Option<string>): (r: Result<Publisher, Error>)
    ensures r.Success? <==> v.Some? && !AllSpace(v.value)
    ensures r.Failure? ==> r.error == EmptyValue
    ensures r.Success? ==> && r.value.value == Strip(v.value)
                           && r.value.language == p.language
                           && SameIdentification(r.value, p)
    ensures r.Success? && Valid(p) ==> Valid(r.value)
  {
    var value :- CheckValue(v);
    Success(p.(value := value))
  }

  /** The `identifier` writer: stores its argument unchanged. */
  function SetIdentifier(p: Publisher, identifier: Option<string>): (r: Publisher)
    ensures r.identifier == identifier
    ensures r.identifierScheme == p.identifierScheme && r.schemeUri == p.schemeUri
    ensures SameNameAndLanguage(r, p)
    ensures Valid(p) ==> Valid(r)
  {
    p.(identifier := identifier)
  }

  /** The `identifier_scheme` writer: stores its argument unchanged. */
  function SetIdentifierScheme(p: Publisher, scheme: Option<string>): (r: Publisher)
    ensures r.identifierScheme == scheme
    ensures r.identifier == p.identifier && r.schemeUri == p.schemeUri
    ensures SameNameAndLanguage(r, p)
    ensures Valid(p) ==> Valid(r)
  {
    p.(identifierScheme := scheme)
  }

  /** The `scheme_uri` writer: stores its argument unchanged. */
  function SetSchemeUri(p: Publisher, uri: Option<string>): (r: Publisher)
    ensures r.schemeUri == uri
    ensures r.identifier == p.identifier && r.identifierScheme == p.identifierScheme
    ensures SameNameAndLanguage(r, p)
    ensures Valid(p) ==> Valid(r)
  {
    p.(schemeUri := uri)
  }

  /** The object before `initialize` runs: every instance variable is nil
      (an unset value is represented by the empty string). */
  const Unset: Publisher := Publisher(None, [], None, None, None)

  /** `Publisher.new(value:, language: nil, identifier: nil,
      identifier_scheme: nil, scheme_uri: nil)`: the fields are set through
      their writers in that order, value last, so construction succeeds
      exactly when the value is accepted. */
  function NewPublisher(value: Option<string>, language: Option<string> := None,
                        identifier: Option<string> := None, identifierScheme: Option<string> := None,
                        schemeUri: Option<string> := None): (r: Result<Publisher, Error>)
    ensures r.Success? <==> value.Some? && !AllSpace(value.value)
    ensures r.Failure? ==> r.error == EmptyValue
    ensures r.Success? ==> && Valid(r.value)
                           && r.value.value == Strip(value.value)
                           && (language.None? ==> r.value.language.None?)
                           && (language.Some? ==> r.value.language == Some(Strip(language.value)))
                           && r.value.identifier == identifier
                           && r.value.identifierScheme == identifierScheme
                           && r.value.schemeUri == schemeUri
  {
    var p := SetLanguage(Unset, language);
    var p := SetIdentifier(p, identifier);
    var p := SetIdentifierScheme(p, identifierScheme);
    var p := SetSchemeUri(p, schemeUri);
    SetValue(p, value)
  }

  /** A publisher built from a name alone has no language and no identifier. */
  lemma NewPublisherDefaults(value: string)
    requires !AllSpace(value)
    ensures NewPublisher(Some(value)) == Success(Publisher(None, Strip(value), None, None, None))
  {
  }

  /** Setting the language, then the value, lands in the same state as the
      other order: the writers touch disjoint fields. */
  lemma SettersCommute(p: Publisher, language: Option<string>, v: Option<string>)
    ensures SetValue(SetLanguage(p, language), v).Success? <==> SetValue(p, v).Success?
    ensures SetValue(p, v).Success? ==>
              SetValue(SetLanguage(p, language), v).value == SetLanguage(SetValue(p, v).value, language)
  {
  }
}

=== FILE: text.dfy ===
/** Ruby's `String#strip` and the whitespace tokenisation used when a
    geographic point is read from text. Strings are sequences of characters.
    `strip` removes NUL as well as the ASCII whitespace that `\s` matches;
    splitting happens at `\s` only. The check that titles and publishers
    apply to their text lives here too. */
module Text {
  import opened Wrappers
  import opened Errors

  /** Horizontal tab, line feed, vertical tab, form feed, carriage return
      and space: the characters Ruby's regular-expression class `\s` matches,
      at which a point's text is split. */
  predicate IsBreak(c: char) {
    var n := c as int;
    (9 <= n <= 13) || n == 32
  }

  /** The characters `String#strip` removes: those of `\s` and NUL. */
  predicate IsSpace(c: char) {
    c as int == 0 || IsBreak(c)
  }

  /** Every character of `s` is whitespace (the empty string included). */
  predicate AllSpace(s: string) {
    forall k :: 0 <= k < |s| ==> IsSpace(s[k])
  }

  /** `s` neither starts nor ends with whitespace. */
  predicate IsStripped(s: string) {
    s == [] || (!IsSpace(s[0]) && !IsSpace(s[|s| - 1]))
  }

  /** A non-empty run of characters that `strip` would not remove. */
  predicate IsToken(s: string) {
    s != [] && forall k :: 0 <= k < |s| ==> !IsSpace(s[k])
  }

  /** Every character of `s` is matched by `\s`. */
  predicate AllBreak(s: string) {
    forall k :: 0 <= k < |s| ==> IsBreak(s[k])
  }

  /** A non-empty run of characters `\s` does not match; it may hold NUL. */
  predicate IsWord(s: string) {
    s != [] && forall k :: 0 <= k < |s| ==> !IsBreak(s[k])
  }

  /** `s` without its leading whitespace: a suffix of `s`, and what was cut
      off is all whitespace. */
  function TrimStart(s: string): (r: string)
    ensures |r| <= |s| && r == s[|s| - |r|..]
    ensures AllSpace(s[..|s| - |r|])
    ensures r != [] ==> !IsSpace(r[0])
    decreases |s|
  {
    if s != [] && IsSpace(s[0]) then
      var r := TrimStart(s[1..]);
      assert s[..|s| - |r|] == [s[0]] + s[1..][..|s[1..]| - |r|];
      r
    else
      s
  }

  /** `s` without its trailing whitespace: a prefix of `s`, and what was cut
      off is all whitespace. */
  function TrimEnd(s: string): (r: string)
    ensures |r| <= |s| && r == s[..|r|]
    ensures AllSpace(s[|r|..])
    ensures r != [] ==> !IsSpace(r[|r| - 1])
    decreases |s|
  {
    if s != [] && IsSpace(s[|s| - 1]) then
      var r := TrimEnd(s[..|s| - 1]);
      assert s[|r|..] == s[..|s| - 1][|r|..] + [s[|s| - 1]];
      r
    else
      s
  }

  /** `r` occurs in `s` at offset `i` with only whitespace on either side. */
  predicate FramedBySpace(s: string, i: int, r: string) {
    && 0 <= i <= |s| - |r|
    && s[i..i + |r|] == r
    && AllSpace(s[..i])
    && AllSpace(s[i + |r|..])
  }

  /** `String#strip`: the infix of `s` left once the whitespace on both
      sides is removed. */
  function Strip(s: string): (r: string)
    ensures IsStripped(r)
    ensures exists i :: FramedBySpace(s, i, r)
  {
    var front := TrimStart(s);
    var r := TrimEnd(front);
    TrimsFrame(s, front, r);
    assert FramedBySpace(s, |s| - |front|, r);
    r
  }

  /** What `TrimStart` and `TrimEnd` promise, put together: trimming the
      front, then the back, leaves a stripped infix framed by whitespace. */
  lemma TrimsFrame(s: string, front: string, r: string)
    requires |front| <= |s| && front == s[|s| - |front|..] && AllSpace(s[..|s| - |front|])
    requires front != [] ==> !IsSpace(front[0])
    requires |r| <= |front| && r == front[..|r|] && AllSpace(front[|r|..])
    requires r != [] ==> !IsSpace(r[|r| - 1])
    ensures IsStripped(r)
    ensures FramedBySpace(s, |s| - |front|, r)
  {
    var i := |s| - |front|;
    SliceOfSuffix(s, i, |r|);
    assert r != [] ==> r[0] == front[0];
  }

  /** Taking from, or dropping from, a suffix of `s` are slices of `s`. */
  lemma SliceOfSuffix(s: string, i: nat, n: nat)
    requires i + n <= |s|
    ensures s[i..][..n] == s[i..i + n]
    ensures s[i..][n..] == s[i + n..]
  {
  }

  /** Leading whitespace in front of a string that does not start with
      whitespace is exactly what `TrimStart` removes. */
  lemma {:induction false} TrimStartPadded(a: string, x: string)
    requires AllSpace(a)
    requires x == [] || !IsSpace(x[0])
    ensures TrimStart(a + x) == x
    decreases |a|
  {
    if a == [] {
      assert a + x == x;
    } else {
      assert (a + x)[1..] == a[1..] + x;
      TrimStartPadded(a[1..], x);
    }
  }

  /** Trailing whitespace behind a string that does not end with whitespace
      is exactly what `TrimEnd` removes. */
  lemma {:induction false} TrimEndPadded(x: string, b: string)
    requires AllSpace(b)
    requires x == [] || !IsSpace(x[|x| - 1])
    ensures TrimEnd(x + b) == x
    decreases |b|
  {
    if b == [] {
      assert x + b == x;
    } else {
      var b' := b[..|b| - 1];
      assert (x + b)[..|x + b| - 1] == x + b';
      TrimEndPadded(x, b');
    }
  }

  /** `Strip` is determined by its specification: whatever stripped string
      sits between two runs of whitespace is the result. */
  lemma {:induction false} StripPadded(a: string, r: string, b: string)
    requires AllSpace(a) && AllSpace(b)
    requires IsStripped(r)
    ensures Strip(a + r + b) == r
  {
    if r == [] {
      assert a + r + b == a + b;
      assert AllSpace(a + b);
      TrimStartPadded(a + b, []);
      assert a + b + [] == a + b;
    } else {
      assert a + r + b == a + (r + b);
      TrimStartPadded(a, r + b);
      TrimEndPadded(r, b);
    }
  }

  /** A stripped string is left alone by `Strip`. */
  lemma StripStripped(s: string)
    requires IsStripped(s)
    ensures Strip(s) == s
  {
    StripPadded([], s, []);
    assert [] + s + [] == s;
  }

  /** Stripping twice is stripping once. */
  lemma StripIdempotent(s: string)
    ensures Strip(Strip(s)) == Strip(s)
  {
    StripStripped(Strip(s));
  }

  /** `Strip` yields the empty string exactly when `s` is blank. */
  lemma StripEmptyIffBlank(s: string)
    ensures Strip(s) == [] <==> AllSpace(s)
  {
    if AllSpace(s) {
      StripPadded(s, [], []);
      assert s + [] + [] == s;
    }
    if Strip(s) == [] {
      var i :| FramedBySpace(s, i, Strip(s));
      assert AllSpace(s[..i]) && AllSpace(s[i..]);
      assert forall k :: 0 <= k < |s| ==> IsSpace(s[k]) by {
        forall k | 0 <= k < |s|
          ensures IsSpace(s[k])
        {
          if k < i { assert s[k] == s[..i][k]; } else { assert s[k] == s[i..][k - i]; }
        }
      }
    }
  }

  /** The length of the run of characters outside `\s` that `s` starts with. */
  function TokenLength(s: string): (n: nat)
    ensures n <= |s|
    ensures forall k :: 0 <= k < n ==> !IsBreak(s[k])
    ensures n < |s| ==> IsBreak(s[n])
    decreases |s|
  {
    if s == [] || IsBreak(s[0]) then 0 else 1 + TokenLength(s[1..])
  }

  /** The maximal runs of characters outside `\s` of `s`, in order: what
      Ruby's `split(/\s+/)` returns for a stripped string. NUL does not
      split. */
  function Words(s: string): (ws: seq<string>)
    ensures forall k :: 0 <= k < |ws| ==> IsWord(ws[k])
    ensures ws == [] <==> AllBreak(s)
    decreases |s|
  {
    if s == [] then
      []
    else if IsBreak(s[0]) then
      var ws := Words(s[1..]);
      assert AllBreak(s[1..]) ==> AllBreak(s) by {
        if AllBreak(s[1..]) {
          forall k | 0 <= k < |s| ensures IsBreak(s[k]) {
            if k > 0 { assert s[k] == s[1..][k - 1]; }
          }
        }
      }
      ws
    else
      var n := TokenLength(s);
      [s[..n]] + Words(s[n..])
  }

  /** Leading separators do not change the words. */
  lemma {:induction false} WordsSkipSpace(c: string, x: string)
    requires AllBreak(c)
    ensures Words(c + x) == Words(x)
    decreases |c|
  {
    if c == [] {
      assert c + x == x;
    } else {
      assert (c + x)[1..] == c[1..] + x;
      WordsSkipSpace(c[1..], x);
    }
  }

  /** A word followed by a separator (or nothing) is the first word. */
  lemma {:induction false} WordsToken(t: string, x: string)
    requires IsWord(t)
    requires x == [] || IsBreak(x[0])
    ensures Words(t + x) == [t] + Words(x)
  {
    TokenLengthOf(t, x);
    assert (t + x)[..|t|] == t;
    assert (t + x)[|t|..] == x;
  }

  /** A run free of `\s` characters followed by a separator (or nothing)
      is exactly the leading run. */
  lemma {:induction false} TokenLengthOf(t: string, x: string)
    requires forall k :: 0 <= k < |t| ==> !IsBreak(t[k])
    requires x == [] || IsBreak(x[0])
    ensures TokenLength(t + x) == |t|
    decreases |t|
  {
    if t == [] {
      assert t + x == x;
    } else {
      assert (t + x)[1..] == t[1..] + x;
      TokenLengthOf(t[1..], x);
    }
  }

  /** Two words separated by any non-empty run of `\s` characters split into
      exactly those two words. */
  lemma WordsOfPair(t1: string, c: string, t2: string)
    requires AllBreak(c) && c != []
    requires IsWord(t1) && IsWord(t2)
    ensures Words(t1 + c + t2) == [t1, t2]
  {
    assert t1 + c + t2 == t1 + (c + t2);
    WordsToken(t1, c + t2);
    WordsSkipSpace(c, t2);
    assert t2 + [] == t2;
    WordsToken(t2, []);
  }

  /** Two tokens with any whitespace around them and a non-empty run of
      `\s` characters between them strip and split back into exactly those
      two tokens. */
  lemma StrippedWordsOfPair(a: string, t1: string, c: string, t2: string, b: string)
    requires AllSpace(a) && AllBreak(c) && AllSpace(b) && c != []
    requires IsToken(t1) && IsToken(t2)
    ensures Words(Strip(a + t1 + c + t2 + b)) == [t1, t2]
  {
    var middle := t1 + c + t2;
    TokenIsWord(t1);
    TokenIsWord(t2);
    PairStripped(t1, c, t2);
    assert a + t1 + c + t2 + b == a + middle + b;
    StripPadded(a, middle, b);
    WordsOfPair(t1, c, t2);
  }

  /** A token holds no `\s` character. */
  lemma TokenIsWord(t: string)
    requires IsToken(t)
    ensures IsWord(t)
  {
  }

  /** Two tokens with a separator between them form a stripped string. */
  lemma PairStripped(t1: string, c: string, t2: string)
    requires IsToken(t1) && IsToken(t2)
    ensures IsStripped(t1 + c + t2)
  {
    var s := t1 + c + t2;
    assert s[0] == t1[0];
    assert s[|s| - 1] == t2[|t2| - 1];
  }

  /** The value check shared by titles and publishers: nil, or a string that
      strips to nothing, is refused; otherwise the stripped string is kept. */
  function CheckValue(v: Option<string>): (r: Result<string, Error>)
    ensures r.Success? <==> v.Some? && !AllSpace(v.value)
    ensures r.Success? ==> r.value == Strip(v.value) && r.value != [] && IsStripped(r.value)
    ensures r.Failure? ==> r.error == EmptyValue
  {
    if v.None? then
      Failure(EmptyValue)
    else
      var newValue := Strip(v.value);
      StripEmptyIffBlank(v.value);
      if newValue == [] then
        Failure(EmptyValue)
      else
        StripIdempotent(v.value);
        Success(Strip(newValue))
  }
}

=== FILE: title.dfy ===
/** A name or title by which a resource is known: its text, a language code
    and an optional title type. Every way of building or changing a title
    goes through the same validating setters. */
module Titles {
  import opened Wrappers
  import opened Errors
  import opened Text
  import opened TitleTypes

  /** The language reported for a title whose language is unset. */
  const DefaultLanguage: string := "en"

  /** The stored state of a title: `storedLanguage` is the instance variable
      behind the `language` reader, which may be nil. */
  datatype Title = Title(storedLanguage: Option<string>, value: string, titleType: Option<TitleType>)

  /** What the setters maintain: a non-empty trimmed value and, when a
      language is stored, a trimmed language. */
  predicate Valid(t: Title) {
    && t.value != []
    && IsStripped(t.value)
    && (t.storedLanguage.Some? ==> IsStripped(t.storedLanguage.value))
  }

  /** The `language` reader: the stored language, or "en" when none is
      stored. A stored empty string is a real value and is returned as is. */
  function Language(t: Title): (r: string)
    ensures t.storedLanguage.None? ==> r == DefaultLanguage
    ensures t.storedLanguage.Some? ==> r == t.storedLanguage.value
  {
    t.storedLanguage.GetOr(DefaultLanguage)
  }

  /** The `language` writer: a string is stored trimmed; nil is ignored and
      leaves whatever was stored before. Nothing else changes. */
  function SetLanguage(t: Title, language: Option<string>): (r: Title)
    ensures r.value == t.value && r.titleType == t.titleType
    ensures language.Some? ==> r.storedLanguage == Some(Strip(language.value))
    ensures language.None? ==> r.storedLanguage == t.storedLanguage
    ensures Valid(t) ==> Valid(r)
  {
    if language.Some? then t.(storedLanguage := Some(Strip(language.value))) else t
  }

  /** The `type` writer: stores the given type, nothing else changes. */
  function SetType(t: Title, titleType: Option<TitleType>): (r: Title)
    ensures r.titleType == titleType
    ensures r.value == t.value && r.storedLanguage == t.storedLanguage
    ensures Valid(t) ==> Valid(r)
  {
    t.(titleType := titleType)
  }

  /** The `value` writer: refuses nil or blank text, and otherwise stores the
      trimmed text, leaving language and type alone. */
  function SetValue(t: Title, v: Option<string>): (r: Result<Title, Error>)
    ensures r.Success? <==> v.Some? && !AllSpace(v.value)
    ensures r.Failure? ==> r.error == EmptyValue
    ensures r.Success? ==> && r.value.value == Strip(v.value)
                           && r.value.storedLanguage == t.storedLanguage
                           && r.value.titleType == t.titleType
    ensures r.Success? && Valid(t) ==> Valid(r.value)
  {
    var value :- CheckValue(v);
    Success(t.(value := value))
  }

  /** The object before `initialize` runs: every instance variable is nil
      (an unset value is represented by the empty string). */
  const Unset: Title := Title(None, [], None)

  /** `Title.new(language: 'en', value:, type: nil)`: language, then type,
      then value are set through the writers, so construction succeeds
      exactly when the value is accepted. */
  function NewTitle(value: Option<string>, language: Option<string> := Some(DefaultLanguage),
                    titleType: Option<TitleType> := None): (r: Result<Title, Error>)
    ensures r.Success? <==> value.Some? && !AllSpace(value.value)
    ensures r.Failure? ==> r.error == EmptyValue
    ensures r.Success? ==> && Valid(r.value)
                           && r.value.value == Strip(value.value)
                           && r.value.titleType == titleType
                           && (language.Some? ==> Language(r.value) == Strip(language.value))
                           && (language.None? ==> Language(r.value) == DefaultLanguage)
  {
    SetValue(SetType(SetLanguage(Unset, language), titleType), value)
  }

  /** A title built without a language reports "en" and has no type. */
  lemma NewTitleDefaults(value: string)
    requires !AllSpace(value)
    ensures NewTitle(Some(value)).Success?
    ensures Language(NewTitle(Some(value)).value) == DefaultLanguage
    ensures NewTitle(Some(value)).value.titleType == None
  {
    assert IsStripped(DefaultLanguage);
    StripStripped(DefaultLanguage);
  }

  /** Surrounding whitespace is trimmed from a title's text. */
  lemma NewTitleExamples()
    ensures NewTitle(Some("  Example  ")).Success?
    ensures NewTitle(Some("  Example  ")).value.value == "Example"
  {
    PaddedExampleStrips();
  }

  /** "  Example  " is not blank and strips to "Example". */
  lemma PaddedExampleStrips()
    ensures Strip("  Example  ") == "Example" && !AllSpace("  Example  ")
  {
    var a: string := "  ";
    var word: string := "Example";
    assert AllSpace(a);
    assert IsStripped(word);
    assert "  Example  " == a + word + a;
    StripPadded(a, word, a);
    StripEmptyIffBlank("  Example  ");
  }

  /** Empty or nil text is refused. */
  lemma NewTitleRefusesEmpty()
    ensures NewTitle(Some("")).Failure? && NewTitle(None).Failure?
  {
  }

  /** Setting a blank language stores the empty string, and the reader then
      returns "" rather than the default. */
  lemma BlankLanguageIsKept(t: Title, language: string)
    requires AllSpace(language)
    ensures Language(SetLanguage(t, Some(language))) == []
  {
    StripEmptyIffBlank(language);
  }

  /** The writers touch disjoint fields: changing the language or the type
      and then the value gives the same title as the other order. */
  lemma SettersCommute(t: Title, language: Option<string>, titleType: Option<TitleType>, v: Option<string>)
    ensures SetValue(SetLanguage(t, language), v).Success? <==> SetValue(t, v).Success?
    ensures SetValue(SetType(t, titleType), v).Success? <==> SetValue(t, v).Success?
    ensures SetValue(t, v).Success? ==>
              SetValue(SetLanguage(SetType(t, titleType), language), v).value
              == SetType(SetLanguage(SetValue(t, v).value, language), titleType)
  {
  }
}

=== FILE: title_type.dfy ===
/** The controlled vocabulary of title types: a closed enumeration whose
    constants each carry a fixed wire token, looked up by exact match. */
module TitleTypes {
  import opened Wrappers

  datatype TitleType = AlternativeTitle | Subtitle | TranslatedTitle

  /** The constants in declaration order. */
  const Declared: seq<TitleType> := [AlternativeTitle, Subtitle, TranslatedTitle]

  /** The token written in the `titleType` attribute: the constant's name
      in ProperCase. */
  function Token(t: TitleType): (r: string)
    ensures r == "AlternativeTitle" <==> t == AlternativeTitle
    ensures r == "Subtitle" <==> t == Subtitle
    ensures r == "TranslatedTitle" <==> t == TranslatedTitle
    ensures r != [] && 'A' <= r[0] <= 'Z'
  {
    match t
    case AlternativeTitle => "AlternativeTitle"
    case Subtitle => "Subtitle"
    case TranslatedTitle => "TranslatedTitle"
  }

  /** The enumeration has exactly three constants, declared once each. */
  lemma DeclaredIsComplete(t: TitleType)
    ensures |Declared| == 3
    ensures t in Declared
    ensures forall i, j :: 0 <= i < j < |Declared| ==> Declared[i] != Declared[j]
  {
  }

  /** Distinct constants have distinct wire tokens. */
  lemma TokenInjective(t: TitleType, u: TitleType)
    ensures Token(t) == Token(u) <==> t == u
  {
  }

  /** The first constant among `ts` whose token is exactly `token`. */
  function Find(ts: seq<TitleType>, token: string): (r: Option<TitleType>)
    ensures r.Some? ==> r.value in ts && Token(r.value) == token
    ensures r.None? ==> forall k :: 0 <= k < |ts| ==> Token(ts[k]) != token
  {
    if ts == [] then None
    else if Token(ts[0]) == token then Some(ts[0])
    else Find(ts[1..], token)
  }

  /** Lookup of a constant by its wire token: case-sensitive, exact match;
      absent when no constant has that token. */
  function Lookup(token: string): (r: Option<TitleType>)
    ensures r.Some? ==> Token(r.value) == token
    ensures r.None? ==> forall t :: Token(t) != token
  {
    var r := Find(Declared, token);
    assert r.None? ==> forall t :: Token(t) != token by {
      if r.None? {
        forall t ensures Token(t) != token {
          DeclaredIsComplete(t);
        }
      }
    }
    r
  }

  /** Every constant is found again from its own token. */
  lemma LookupToken(t: TitleType)
    ensures Lookup(Token(t)) == Some(t)
  {
    var r := Lookup(Token(t));
    assert r.Some?;
    TokenInjective(r.value, t);
  }

  /** Lookup distinguishes case: "subtitle" and an unknown word name nothing. */
  lemma LookupIsExact()
    ensures Lookup("Subtitle") == Some(Subtitle)
    ensures Lookup("subtitle") == None
    ensures Lookup("NotAType") == None
  {
    LookupToken(Subtitle);
  }
}

=== FILE: wrappers.dfy ===
/** Failure-compatible wrappers: `Option` stands for a Ruby value that may be
    nil, `Result` for an operation that may raise. */
module Wrappers {

  /** A value that may be absent (Ruby's nil). */
  datatype Option<+T> = None | Some(value: T) {

    /** Returns the wrapped value, or `default` when absent. */
    function GetOr(default: T): T {
      match this
      case Some(v) => v
      case None => default
    }
  }

  /** The outcome of an operation that either returns a value or raises. */
  datatype Result<+R, +E> = Success(value: R) | Failure(error: E) {

    predicate IsFailure() {
      Failure?
    }

    function PropagateFailure<U>(): Result<U, E>
      requires Failure?
    {
      Failure(error)
    }

    function Extract(): R
      requires Success?
    {
      value
    }
  }
}
